=== FILE: README.md ===
# Port selection for the Perl language server's VS Code client

This project models the port allocator of `clients/vscode/perl/src/get-port.ts`. The
client calls it to find a free TCP port before it launches the debug server. The model
covers five parts:

- `portNumbers(from, to)`: validates its bounds and produces the ascending port range.
- `portCheckSequence`: the preferred ports in order, then the fallback `0`.
- Option normalisation: a single `port` number becomes a one-element list, and every
  `exclude` entry must be a safe integer.
- The two-generation lease registry `lockedPorts` (`old` / `young`). Its interval
  callback is an explicit `Tick`.
- The allocation loop of `getPorts` / `getAvailablePort`. It skips excluded candidates,
  probes the others, classifies errors and checks leases.

The bind-and-release probe is an oracle: the i-th probe made gets the i-th element of a
sequence of outcomes (`Bound(port)` or `Refused(error)`). Each probe is recorded with the
host and port it asked for. The operating system's interface listing is an input. The
registry is passed in, and the updated registry is returned.

Modules:

- `Base`: `Option` and `Result`.
- `JsNumbers`: JavaScript numbers, `Number.isInteger` and `Number.isSafeInteger`.
- `PortRange`: `portNumbers`.
- `PortOptions`: the options, the candidate sequence and the exclude checks.
- `LocalHosts`: `getLocalHosts`.
- `LeaseRegistry`: `lockedPorts` and its tick.
- `Probing`: `getAvailablePort`.
- `Allocator` and `AllocatorLemmas`: `getPorts`.
- `AsWritten`: the findings below.

Behaviour of the code worth knowing before reading the contracts:

- Per host, only `EADDRNOTAVAIL` and `EINVAL` are swallowed. `EADDRINUSE` is not, even
  for the wildcard host: it leaves `getAvailablePort` and moves the candidate loop on to
  the next candidate.
- Per candidate, `EADDRINUSE` and `EACCES` move on to the next candidate, so permission
  denied is not fatal. Every other code, and a missing code, aborts the allocation. In
  single-probe mode this includes `EADDRNOTAVAIL` and `EINVAL`.
- `exclude` filters only the candidate values. A port that the operating system assigns
  to the fallback `0` is not checked against `exclude`.
- A truthy `port` option that is neither a number nor iterable makes `yield * ports`
  throw a TypeError after the exclude checks and before any probe.

## Model

| member | source | states |
|---|---|---|
| PortRange.Ascending | clients/vscode/perl/src/get-port.ts:203-209 | the generator yields `to - from + 1` ports when `from <= to` and none otherwise; element i is `from + i`; the ports are strictly ascending; a number is yielded iff it lies in `[from, to]` |
| PortRange.PortNumbers | clients/vscode/perl/src/get-port.ts:186-210 | each of the four errors (non-integer bound, `from` outside `[1024, 65535]`, `to` outside it, `from > to`) is raised exactly when its check fails and every earlier check passed; a range is produced only for valid bounds |
| PortRange.PortNumbersYieldsRange | clients/vscode/perl/src/get-port.ts:186-209 | for valid bounds the result is exactly `from, ..., to`: `to - from + 1` ports, strictly ascending, starting at `from`, ending at `to`, all valid ports |
| PortOptions.PreferredPorts | clients/vscode/perl/src/get-port.ts:112-118 | an absent `port` and a falsy `0` give no preferred port; any other single number gives a one-element list; an iterable is used as given |
| PortOptions.CandidateSequence | clients/vscode/perl/src/get-port.ts:103-109 | the candidates are the preferred ports in their order, followed by exactly one `0` |
| PortOptions.CheckEntries | clients/vscode/perl/src/get-port.ts:126-136 | the entries pass iff every entry is a number and a safe integer; on success the excluded set holds exactly the entries' values (for a one-shot iterable this is the corrected reading, see Findings); on failure the error belongs to the first rejected entry (not a number, or not a safe integer) |
| PortOptions.ValidateExclude | clients/vscode/perl/src/get-port.ts:119-137 | corrected reading (see Findings): an absent exclude option excludes nothing; a non-iterable one is a TypeError; an iterable, re-readable or not, is checked entry by entry and excludes exactly its entries' values |
| PortOptions.PortNumbersAsExclude | clients/vscode/perl/src/get-port.ts:10-15 | corrected reading: the generator `portNumbers(from, to)` returns for valid bounds, used as `exclude`, passes validation and excludes exactly the ports in `[from, to]` |
| LocalHosts.Add | clients/vscode/perl/src/get-port.ts:57 | `Set.add` adds the address unless it is present, keeps the set free of duplicates and keeps insertion order |
| LocalHosts.AddAddresses | clients/vscode/perl/src/get-port.ts:56-58 | after adding one interface's addresses, the set holds exactly the earlier hosts plus those addresses, without duplicates and with the earlier hosts as a prefix |
| LocalHosts.AddInterfaces | clients/vscode/perl/src/get-port.ts:54-60 | undefined interface entries are skipped; the set holds exactly the earlier hosts plus every configured address, without duplicates |
| LocalHosts.GetLocalHosts | clients/vscode/perl/src/get-port.ts:47-63 | the host set starts with `undefined` and `'0.0.0.0'`, has no duplicates, and holds exactly these two plus every address of every interface |
| LeaseRegistry.Lease | clients/vscode/perl/src/get-port.ts:167 | after recording `p`, a port is leased iff it was leased before or is `p`; the old generation is unchanged; disjoint generations stay disjoint when `p` was free |
| LeaseRegistry.Tick | clients/vscode/perl/src/get-port.ts:141-144 | after a tick, a port is leased iff it was in the young generation; the generations are disjoint |
| LeaseRegistry.LeaseLifetime | clients/vscode/perl/src/get-port.ts:36-39 | with no new lease of `p`: without a tick `p`'s status is unchanged; after one tick it is leased iff it was young; after two or more ticks it is free |
| LeaseRegistry.LeaseExpiresAfterTwoTicks | clients/vscode/perl/src/get-port.ts:141-144 | a port leased once and never leased again stays blocked through one tick and is free after the second |
| LeaseRegistry.ReplayKeepsDisjoint | clients/vscode/perl/src/get-port.ts:159-167 | ticks, and leases of ports that are not leased, keep the two generations disjoint |
| Probing.ProbeHosts | clients/vscode/perl/src/get-port.ts:84-98 | hosts are probed in order with the candidate; the candidate is reported available iff every host's probe bound or failed with EADDRNOTAVAIL/EINVAL; any other error, or a missing code, stops the loop at that host and is rethrown |
| Probing.GetAvailablePort | clients/vscode/perl/src/get-port.ts:79-101 | with a non-empty host, or candidate `0`, exactly one probe is made on that host, and its bound port or its error is the result; otherwise it is the multi-host loop, which resolves with the candidate itself |
| Probing.MultiHostVerdict | clients/vscode/perl/src/get-port.ts:84-98 | if the first failing host is number k with a non-swallowed error, that error is rethrown after exactly k + 1 probes |
| Allocator.TryCandidate | clients/vscode/perl/src/get-port.ts:158-169 | an acquired port is not leased; in multi-host mode it is the candidate; a lock conflict happens only for a non-zero candidate, which gets one round of probing; the fallback `0` re-probes on the same host while the bound port is leased; with a single probe, an unleased bound port is acquired, a leased one locks a non-zero candidate and a refusal of that first probe fails the attempt; with several hosts, a candidate every host accepts is acquired if unleased and locked if leased, a rethrown host error fails it, and an acquired candidate was accepted by every host; the attempt runs out only after consulting every outcome, with several hosts exactly when the host loop ran out, and with a single probe only when every outcome bound a leased port |
| Allocator.AllocateFrom | clients/vscode/perl/src/get-port.ts:153-183 | no excluded or foreign port is probed; on success the port was unleased and is now in `young`, with nothing else changed; on failure the registry is unchanged; a rethrown probe error is neither EADDRINUSE nor EACCES; if every candidate is excluded the result is "No available ports found" with no probe; the allocation runs out only after consulting every outcome |
| Allocator.AllocateFromReturnsAccepted | clients/vscode/perl/src/get-port.ts:84-100 | with at least one local host, a port the candidate loop returns is either the port its last probe bound (single-probe mode) or a candidate whose last probes asked every local host in turn and were all accepted |
| Allocator.GetPorts | clients/vscode/perl/src/get-port.ts:111-184 | a malformed `exclude` is a TypeError before any probe, with the registry unchanged; a non-iterable `port` is a TypeError after the exclude checks and before any probe; a returned port was not leased and is then young; only candidates of the sequence are probed, never an excluded one; disjointness of the generations is preserved; the allocation runs out only after consulting every outcome; a returned port is the one the last probe bound, or a candidate the last probes found accepted by every local host |
| AllocatorLemmas.FallbackTakesFirstUnleased | clients/vscode/perl/src/get-port.ts:159-165 | the fallback returns the port of the first probe that binds an unleased port, after exactly one re-probe per earlier leased port, all on the same host with port `0` |
| AllocatorLemmas.FallbackFailsAtFirstRefusal | clients/vscode/perl/src/get-port.ts:159-165 | a refusal on the fallback's k-th re-probe, after probes that each bound a leased port, ends the attempt with that error after exactly k + 1 probes of `(host, 0)` |
| AllocatorLemmas.FallbackRefusalAborts | clients/vscode/perl/src/get-port.ts:159-179 | `getPorts()` whose fallback binds a leased port and is then refused with EPERM rejects with EPERM after two probes, leasing nothing |
| AllocatorLemmas.ExhaustedAttemptIsReported | clients/vscode/perl/src/get-port.ts:155-169 | a candidate whose attempt runs out of outcomes ends the loop as running out, registry unchanged, never as a found port |
| AllocatorLemmas.AcquiredAttemptIsReturned | clients/vscode/perl/src/get-port.ts:155-169 | a candidate that is not excluded and whose attempt acquires a port ends the loop: that port is returned and leased, after the attempt's probes only |
| AllocatorLemmas.GivenUpCandidateMovesOn | clients/vscode/perl/src/get-port.ts:159-180 | a candidate that is not excluded and is given up, as leased or refused with EADDRINUSE or EACCES, hands the loop to the next candidate with the outcomes its attempt left unused |
| AllocatorLemmas.PinnedHostUnleasedPortIsReturned | clients/vscode/perl/src/get-port.ts:159-169 | with a host set, a pinned candidate that is not excluded and whose probe binds an unleased port is returned and leased after exactly that one probe |
| AllocatorLemmas.PinnedLeasedCandidateMovesOn | clients/vscode/perl/src/get-port.ts:159-171 | a leased pinned candidate that all hosts accept costs one probe per host; allocation then continues with the next candidate and the remaining outcomes |
| AllocatorLemmas.CandidateErrorClassification | clients/vscode/perl/src/get-port.ts:170-179 | in single-probe mode, a probe error with code EADDRINUSE or EACCES moves on to the next candidate; any other code, or none, aborts with that error after that single probe |
| AllocatorLemmas.MultiHostCandidateErrorClassification | clients/vscode/perl/src/get-port.ts:170-179 | in multi-host mode, when host k is the first to fail with an error that is not swallowed, EADDRINUSE or EACCES moves on to the next candidate after k + 1 probes; any other code, or none, aborts with that error, registry unchanged |
| AllocatorLemmas.NoAvailablePortsExactly | clients/vscode/perl/src/get-port.ts:153-183 | the result is "No available ports found" exactly when every candidate that is not excluded was given up: locked, or refused with EADDRINUSE or EACCES |
| AllocatorLemmas.EveryCandidateRefused | clients/vscode/perl/src/get-port.ts:170-183 | port 5000 on 127.0.0.1 refused with EADDRINUSE, then the fallback refused with EACCES: two probes, then "No available ports found" |
| AllocatorLemmas.DefaultOptionsProbeOnlyFallback | clients/vscode/perl/src/get-port.ts:103-118 | with no `port`, `port: 0` or an empty list, every probe is of port `0` on the configured host |
| AllocatorLemmas.ExcludedPreferenceFallsBack | clients/vscode/perl/src/get-port.ts:153-158 | `{port: [5000], exclude: [5000]}` never probes 5000; its only probe is the fallback, whose unleased port is returned |
| AllocatorLemmas.ExcludedPinnedPortProbesOnlyFallback | clients/vscode/perl/src/get-port.ts:153-158 | a pinned port covered by `exclude`, with `0` not covered: every probe is of the fallback `0` on the default host |
| AllocatorLemmas.GeneratorExcludeHonoured | clients/vscode/perl/src/get-port.ts:119-158 | corrected reading: `{port: 3000, exclude: portNumbers(3000, 3010)}` never probes 3000; only the fallback is probed |
| AllocatorLemmas.NoReuseWithinLeaseWindow | clients/vscode/perl/src/get-port.ts:159-167 | two allocations separated by fewer than two ticks never return the same port, whatever other leases happen in between |
| AllocatorLemmas.ReusableAfterTwoTicks | clients/vscode/perl/src/get-port.ts:141-144 | after two ticks without a new lease of it, a previously returned port can be returned again when pinned |
| AllocatorLemmas.UnleasedPinnedPortIsReturned | clients/vscode/perl/src/get-port.ts:84-100 | an unleased pinned port that every local host accepts is itself returned and leased |
| AllocatorLemmas.PinnedHostLeasedPortIsLocked | clients/vscode/perl/src/get-port.ts:159-162 | with a host set, a pinned candidate whose probe binds a leased port is given up after that one probe |
| AllocatorLemmas.PinnedHostSecondRequestRefused | clients/vscode/perl/src/get-port.ts:159-169 | two requests for port 5000 on host 127.0.0.1 without a tick: the first gets 5000; the second gives it up and takes the fallback's port |
| AsWritten.AttemptAsWritten | clients/vscode/perl/src/get-port.ts:72-74 | as written, the single-probe result is a fresh address object, so the lease check never finds it: the attempt is never locked and returns the bound port |
| AsWritten.LeasedPortHandedOutTwice | clients/vscode/perl/src/get-port.ts:72-74 | as written, port 5000 on a pinned host is handed out twice in a row while the first lease is still held |
| AsWritten.ValidateExcludeAsWritten | clients/vscode/perl/src/get-port.ts:126-136 | as written, validation accepts and rejects the same inputs as the corrected reading, but a one-shot iterable (a generator) that passes yields an empty exclude set, because `new Set` reads it a second time |
| AsWritten.GeneratorExcludeExcludesNothing | clients/vscode/perl/src/get-port.ts:126-136 | as written, `{port: 3000, exclude: portNumbers(3000, 3010)}` passes validation, excludes nothing, probes 3000 first and returns it when every host accepts it and it is unleased |

## Findings

| source | as written | input that shows it | evidently intended | confidence | as-written member | corrected member |
|---|---|---|---|---|---|---|
| clients/vscode/perl/src/get-port.ts:72-74 | `checkAvailablePort` resolves with `server.address()`, an object. With a host set, or for the fallback `0`, that object is what `getPorts` lease-checks, records in `young` and returns. `Set.has` compares objects by identity, so the lease check never matches and the fallback's re-probe loop never runs. | `getPorts({port: 5000, host: '127.0.0.1'})` twice with no tick between, where both probes bind 5000: both calls return port 5000 | resolve with the bound port number, so the lease check compares port numbers and the caller gets a number | high (not executed) | AsWritten.LeasedPortHandedOutTwice | AllocatorLemmas.NoReuseWithinLeaseWindow |
| clients/vscode/perl/src/get-port.ts:126-136 | the entries are checked by one `for...of` pass; `new Set(excludeIterable)` then reads the iterable again. A generator, such as the one `portNumbers` returns, is used up by the first pass, so the exclude set is empty. | `getPorts({port: 3000, exclude: portNumbers(3000, 3010)})` with every host accepting 3000: returns 3000 | collect the entries in the checking pass, so that a generator excludes its ports, as the option's documentation at lines 10-15 suggests | high (not executed) | AsWritten.GeneratorExcludeExcludesNothing | PortOptions.PortNumbersAsExclude |

For both rows the rest of the model uses the corrected reading. A probe resolves with the
bound port number, and `AllocatorLemmas.PinnedHostSecondRequestRefused` replays the first
row's input against it. The exclude entries are collected in the checking pass, and
`AllocatorLemmas.GeneratorExcludeHonoured` replays the second row's input against it.

## Left out

- Socket probing (`net.createServer`, `listen`, `close`, `unref`) is I/O. It is replaced by
  the oracle of probe outcomes. The model does not constrain the port a probe reports, so
  it does not state that a returned port lies in `[0, 65535]`.
- The running-out case (`OutOfOutcomes`, `OracleExhausted`, `Exhausted`) exists only in the
  model. It marks an oracle too short to say what the source does next. The contracts
  state that it happens only once every outcome has been consulted, and only where the
  source would still be probing: the host loop ran out, or every probe of the fallback
  bound a leased port. It is never reported as a found port. It replaces a termination argument for the fallback's re-probe
  loop, which the source does not have.
- `os.networkInterfaces()` is an operating-system query. Its result is an input: one entry
  per interface, with the entry's addresses or `undefined`.
- The timer (`setInterval` on first use, its 15-second period, `unref`) is plumbing. The
  model has an explicit `Tick`, and a caller decides when it happens.
- Concurrency between `await` points is not modelled. Interleaved `getPorts` calls are
  modelled as calls in sequence, with ticks and other leases between them.
- Listen options other than `port` and `host` are not modelled, because they do not affect
  the decisions made.
- A call with `options` undefined is not modelled separately. It behaves like an options
  object whose fields are all absent.
- Preferred ports are integers. A single `NaN` port is falsy, like `0`, so it gives no
  preferred port; `SinglePort(0)` stands for both. A non-integer port, single (such as `1.5` or
  `Infinity`) or inside an iterable, only reaches the probe, and what the probe does with it is the oracle's business. A
  truthy non-iterable `port` is modelled as `NonIterablePort`, whose TypeError
  `getPorts` returns.
- `Locked`'s message text, and the numeric text in the exclude TypeError, are not modelled.
  The errors are distinguished by constructor.
- `extension.ts` (configuration reads and language-client registration) and
  `out/dbgforward.js` (a byte pipe between stdin/stdout and a socket) are not part of this
  model. They have no decision logic beyond I/O.

=== FILE: allocator.dfy ===
/**
  `getPorts`: option normalisation, exclude validation, and the allocation loop over
  the candidate sequence with its lease check and error classification. The lease
  registry is passed in and the updated registry is returned; the interface listing
  and the probe oracle are inputs.
 */
module Allocator {
  import opened Base
  import opened PortOptions
  import opened LocalHosts
  import opened LeaseRegistry
  import opened Probing

  /** The outcome of one iteration of the candidate loop. */
  datatype Attempt =
    | Acquired(port: int)      // the port is returned
    | Locked                   // `throw new Locked(port)`: the pinned candidate is leased
    | Failed(err: ProbeError)  // `getAvailablePort` threw
    | OutOfOutcomes            // the oracle ran out before the source would have finished

  /** What `getPorts` rejects with. */
  datatype AllocError =
    | InvalidExclude(fault: ExcludeFault) // a TypeError from the exclude checks
    | PortNotIterable                     // the TypeError of `yield * ports` for a non-iterable port
    | ProbeFailed(err: ProbeError)        // a probe error rethrown unchanged
    | NoAvailablePorts                    // Error('No available ports found')
    | OracleExhausted                     // model only: no more probe outcomes to consult

  /** The result of `getPorts`, the registry after it, and the probes it made. */
  datatype Allocation = Allocation(result: Result<int, AllocError>, registry: Registry, calls: seq<ProbeCall>)

  /** Probe errors after which the loop moves on to the next candidate. */
  predicate SkipsCandidate(e: ProbeError) {
    e.code.Some? && e.code.value in ["EADDRINUSE", "EACCES"]
  }

  /**
    The body of the `try` for a candidate that is not excluded: probe it, and while the
    resulting port is leased either give the candidate up (pinned, non-zero) or probe
    again (the fallback `0`).
   */
  function TryCandidate(reg: Registry, host: Option<string>, port: int, hosts: seq<Host>, oracle: seq<ProbeOutcome>)
    : (r: WithCalls<Attempt>)
    decreases |oracle|
    ensures |r.calls| <= |oracle|
    ensures forall i :: 0 <= i < |r.calls| ==> r.calls[i].port == port
    ensures r.outcome.Acquired? ==> !Leased(reg, r.outcome.port)
    ensures r.outcome.Acquired? && !SingleProbe(host, port) ==> r.outcome.port == port
    ensures r.outcome.Acquired? && SingleProbe(host, port) ==>
              |r.calls| >= 1 && oracle[|r.calls| - 1] == Bound(r.outcome.port)
    ensures r.outcome.Failed? ==>
              |r.calls| >= 1 && oracle[|r.calls| - 1] == Refused(r.outcome.err)
    ensures r.outcome.Failed? && !SingleProbe(host, port) ==> !SkipsHost(r.outcome.err)
    ensures r.outcome.Locked? ==> port != 0
    ensures r.outcome.Locked? && !SingleProbe(host, port) ==> Leased(reg, port)
    // a pinned candidate is probed by one call of `getAvailablePort` only
    ensures port != 0 ==> r.calls == GetAvailablePort(host, port, hosts, oracle).calls
    // the fallback re-probes on `host` for as long as the port it gets is leased
    ensures port == 0 ==> forall i :: 0 <= i < |r.calls| ==> r.calls[i].host == host
    ensures port == 0 ==> forall i :: 0 <= i < |r.calls| - 1 ==>
              oracle[i].Bound? && Leased(reg, oracle[i].port)
    // the oracle runs out only once every outcome has been consulted
    ensures r.outcome.OutOfOutcomes? ==> |r.calls| == |oracle|
    // a single probe decides the attempt by the port it bound and the lease check
    ensures SingleProbe(host, port) && |oracle| > 0 && oracle[0].Bound? && !Leased(reg, oracle[0].port) ==>
              r == WithCalls(Acquired(oracle[0].port), [ProbeCall(host, port)])
    ensures port != 0 && SingleProbe(host, port) && |oracle| > 0 && oracle[0].Bound? ==>
              r.outcome == (if Leased(reg, oracle[0].port) then Locked else Acquired(oracle[0].port))
    ensures SingleProbe(host, port) && |oracle| > 0 && oracle[0].Refused? ==>
              r == WithCalls(Failed(oracle[0].err), [ProbeCall(host, port)])
    // with several hosts the verdict of the host loop decides it
    ensures !SingleProbe(host, port) && ProbeHosts(hosts, port, oracle).outcome.Available? ==>
              r.outcome == (if Leased(reg, port) then Locked else Acquired(port))
    ensures !SingleProbe(host, port) && ProbeHosts(hosts, port, oracle).outcome.Threw? ==>
              r.outcome == Failed(ProbeHosts(hosts, port, oracle).outcome.err)
    ensures r.outcome.Acquired? && !SingleProbe(host, port) ==>
              |r.calls| == |hosts| && AcceptedByEveryHost(r.calls, oracle, hosts, port)
    // the attempt runs out only where the source would still be probing
    ensures !SingleProbe(host, port) ==>
              (r.outcome.OutOfOutcomes? <==> ProbeHosts(hosts, port, oracle).outcome.Exhausted?)
    ensures r.outcome.OutOfOutcomes? && SingleProbe(host, port) ==>
              forall i :: 0 <= i < |oracle| ==> oracle[i].Bound? && Leased(reg, oracle[i].port)
  {
    var probe := GetAvailablePort(host, port, hosts, oracle);
    match probe.outcome
    case Exhausted => WithCalls(OutOfOutcomes, probe.calls)
    case Threw(e) => WithCalls(Failed(e), probe.calls)
    case Available(p) =>
      if !Leased(reg, p) then WithCalls(Acquired(p), probe.calls)
      else if port != 0 then WithCalls(Locked, probe.calls)
      else
        var again := TryCandidate(reg, host, port, hosts, oracle[1..]);
        WithCalls(again.outcome, probe.calls + again.calls)
  }

  /**
    The `for ... of portCheckSequence(ports)` loop with its `catch`: excluded candidates
    are skipped unprobed, a lock conflict or an EADDRINUSE/EACCES error moves on to the
    next candidate, any other error aborts, and running out of candidates is
    "No available ports found".
   */
  function AllocateFrom(reg: Registry, host: Option<string>, exclude: set<int>, candidates: seq<int>,
                        hosts: seq<Host>, oracle: seq<ProbeOutcome>): (r: Allocation)
    decreases |candidates|
    ensures |r.calls| <= |oracle|
    ensures forall i :: 0 <= i < |r.calls| ==> r.calls[i].port in candidates && r.calls[i].port !in exclude
    ensures r.result.Ok? ==> !Leased(reg, r.result.value) && r.registry == Lease(reg, r.result.value)
    ensures r.result.Err? ==> r.registry == reg
    ensures r.result.Ok? ==>
              (r.result.value in candidates && r.result.value !in exclude)
              || (|r.calls| >= 1 && oracle[|r.calls| - 1] == Bound(r.result.value))
    ensures r.result.Err? ==> !r.result.error.InvalidExclude? && !r.result.error.PortNotIterable?
    ensures r.result.Err? && r.result.error.ProbeFailed? ==>
              && !SkipsCandidate(r.result.error.err)
              && |r.calls| >= 1 && oracle[|r.calls| - 1] == Refused(r.result.error.err)
    ensures (forall i :: 0 <= i < |candidates| ==> candidates[i] in exclude) ==>
              r == Allocation(Err(NoAvailablePorts), reg, [])
    ensures r.result == Err(OracleExhausted) ==> |r.calls| == |oracle|
  {
    if |candidates| == 0 then Allocation(Err(NoAvailablePorts), reg, [])
    else
      var port := candidates[0];
      if port in exclude then AllocateFrom(reg, host, exclude, candidates[1..], hosts, oracle)
      else
        var attempt := TryCandidate(reg, host, port, hosts, oracle);
        var used := |attempt.calls|;
        match attempt.outcome
        case Acquired(p) => Allocation(Ok(p), Lease(reg, p), attempt.calls)
        case OutOfOutcomes => Allocation(Err(OracleExhausted), reg, attempt.calls)
        case Failed(e) =>
          if !SkipsCandidate(e) then Allocation(Err(ProbeFailed(e)), reg, attempt.calls)
          else
            var next := AllocateFrom(reg, host, exclude, candidates[1..], hosts, oracle[used..]);
            Allocation(next.result, next.registry, attempt.calls + next.calls)
        case Locked =>
          var next := AllocateFrom(reg, host, exclude, candidates[1..], hosts, oracle[used..]);
          Allocation(next.result, next.registry, attempt.calls + next.calls)
  }

  /**
    The port returned is the one the last probe bound, or, when the candidate was
    probed on every local host, that candidate, which all of them accepted.
   */
  predicate ReturnedPortAccepted(host: Option<string>, hosts: seq<Host>, oracle: seq<ProbeOutcome>, r: Allocation)
    requires |r.calls| <= |oracle|
  {
    r.result.Ok? ==>
      && |r.calls| > 0
      && var last := r.calls[|r.calls| - 1];
         if SingleProbe(host, last.port) then oracle[|r.calls| - 1] == Bound(r.result.value)
         else last.port == r.result.value && AcceptedByEveryHost(r.calls, oracle, hosts, last.port)
  }

  /** With at least one local host, every port `AllocateFrom` returns was accepted. */
  lemma {:induction false} AllocateFromReturnsAccepted(reg: Registry, host: Option<string>, exclude: set<int>,
                                                       candidates: seq<int>, hosts: seq<Host>, oracle: seq<ProbeOutcome>)
    requires |hosts| > 0
    ensures ReturnedPortAccepted(host, hosts, oracle, AllocateFrom(reg, host, exclude, candidates, hosts, oracle))
    decreases |candidates|
  {
    if |candidates| > 0 {
      var port := candidates[0];
      if port in exclude {
        AllocateFromReturnsAccepted(reg, host, exclude, candidates[1..], hosts, oracle);
      } else {
        var attempt := TryCandidate(reg, host, port, hosts, oracle);
        var used := |attempt.calls|;
        var next := AllocateFrom(reg, host, exclude, candidates[1..], hosts, oracle[used..]);
        if attempt.outcome.Locked? || (attempt.outcome.Failed? && SkipsCandidate(attempt.outcome.err)) {
          AllocateFromReturnsAccepted(reg, host, exclude, candidates[1..], hosts, oracle[used..]);
          AcceptedAfterEarlierProbes(attempt.calls, next.calls, oracle, hosts);
          var calls := attempt.calls + next.calls;
          if next.result.Ok? {
            assert calls[|calls| - 1] == next.calls[|next.calls| - 1];
            assert oracle[|calls| - 1] == oracle[used..][|next.calls| - 1];
          }
        }
      }
    }
  }

  /**
    `getPorts(options)` against the registry `reg`, the interface listing `interfaces`
    and the probe outcomes `oracle`.
   */
  function GetPorts(reg: Registry, options: Options, interfaces: seq<Option<seq<string>>>, oracle: seq<ProbeOutcome>)
    : (r: Allocation)
    ensures ValidateExclude(options.exclude).Err? ==>
              r == Allocation(Err(InvalidExclude(ValidateExclude(options.exclude).error)), reg, [])
    ensures ValidateExclude(options.exclude).Ok? && options.port.NonIterablePort? ==>
              r == Allocation(Err(PortNotIterable), reg, [])
    ensures ValidateExclude(options.exclude).Ok? ==> !(r.result.Err? && r.result.error.InvalidExclude?)
    ensures !options.port.NonIterablePort? ==> r.result != Err(PortNotIterable)
    ensures r.result.Ok? ==> !Leased(reg, r.result.value) && r.registry == Lease(reg, r.result.value)
    ensures r.result.Err? ==> r.registry == reg
    ensures Disjoint(reg) ==> Disjoint(r.registry)
    ensures !options.port.NonIterablePort? ==>
              forall i :: 0 <= i < |r.calls| ==> r.calls[i].port in CandidateSequence(PreferredPorts(options.port))
    ensures ValidateExclude(options.exclude).Ok? ==>
              forall i :: 0 <= i < |r.calls| ==> r.calls[i].port !in ValidateExclude(options.exclude).value
    ensures r.result == Err(OracleExhausted) ==> |r.calls| == |oracle|
    ensures |r.calls| <= |oracle|
    // a port probed on every local host is returned only when all of them accepted it
    ensures ReturnedPortAccepted(options.host, GetLocalHosts(interfaces), oracle, r)
  {
    match ValidateExclude(options.exclude)
    case Err(fault) => Allocation(Err(InvalidExclude(fault)), reg, [])
    case Ok(exclude) =>
      if options.port.NonIterablePort? then Allocation(Err(PortNotIterable), reg, [])
      else
        var candidates := CandidateSequence(PreferredPorts(options.port));
        AllocateFromReturnsAccepted(reg, options.host, exclude, candidates, GetLocalHosts(interfaces), oracle);
        AllocateFrom(reg, options.host, exclude, candidates, GetLocalHosts(interfaces), oracle)
  }
}

=== FILE: allocator_lemmas.dfy ===
/** Properties of `getPorts` that relate several steps or several calls. */
module AllocatorLemmas {
  import opened Base
  import opened JsNumbers
  import opened PortOptions
  import opened LocalHosts
  import opened LeaseRegistry
  import opened Probing
  import opened Allocator

  /**
    The fallback `0` ends with the first probe that binds an unleased port, after
    re-probing once for each earlier probe that bound a leased one.
   */
  lemma {:induction false} FallbackTakesFirstUnleased(reg: Registry, host: Option<string>, hosts: seq<Host>,
                                                      oracle: seq<ProbeOutcome>, k: nat)
    requires k < |oracle|
    requires forall i :: 0 <= i < k ==> oracle[i].Bound? && Leased(reg, oracle[i].port)
    requires oracle[k].Bound? && !Leased(reg, oracle[k].port)
    ensures TryCandidate(reg, host, 0, hosts, oracle).outcome == Acquired(oracle[k].port)
    ensures TryCandidate(reg, host, 0, hosts, oracle).calls == seq(k + 1, _ => ProbeCall(host, 0))
    decreases k
  {
    if k > 0 {
      FallbackTakesFirstUnleased(reg, host, hosts, oracle[1..], k - 1);
      assert [ProbeCall(host, 0)] + seq(k, _ => ProbeCall(host, 0)) == seq(k + 1, _ => ProbeCall(host, 0));
    }
  }

  /**
    A refusal on one of the fallback's probes, after re-probes that each bound a leased
    port, ends the attempt with that error; the candidate loop then classifies it.
   */
  lemma {:induction false} FallbackFailsAtFirstRefusal(reg: Registry, host: Option<string>, hosts: seq<Host>,
                                                       oracle: seq<ProbeOutcome>, k: nat)
    requires k < |oracle|
    requires forall i :: 0 <= i < k ==> oracle[i].Bound? && Leased(reg, oracle[i].port)
    requires oracle[k].Refused?
    ensures TryCandidate(reg, host, 0, hosts, oracle) == WithCalls(Failed(oracle[k].err), seq(k + 1, _ => ProbeCall(host, 0)))
    decreases k
  {
    if k > 0 {
      FallbackFailsAtFirstRefusal(reg, host, hosts, oracle[1..], k - 1);
      assert [ProbeCall(host, 0)] + seq(k, _ => ProbeCall(host, 0)) == seq(k + 1, _ => ProbeCall(host, 0));
    }
  }

  /**
    `getPorts()` whose fallback first binds the leased port 6000 and is then refused
    with EPERM rejects with that error after the two probes, leasing nothing.
   */
  lemma FallbackRefusalAborts(interfaces: seq<Option<seq<string>>>)
    ensures var reg := Registry({}, {6000});
            var eperm := ProbeError(Some("EPERM"));
            GetPorts(reg, Options(NoPort, NoExclude, None), interfaces, [Bound(6000), Refused(eperm)])
              == Allocation(Err(ProbeFailed(eperm)), reg, [ProbeCall(None, 0), ProbeCall(None, 0)])
  {
    var reg := Registry({}, {6000});
    var oracle := [Bound(6000), Refused(ProbeError(Some("EPERM")))];
    FallbackFailsAtFirstRefusal(reg, None, GetLocalHosts(interfaces), oracle, 1);
    assert CandidateSequence(PreferredPorts(NoPort)) == [0];
  }

  /**
    A pinned candidate that every host accepts, but that is leased, is given up after
    one probe per host: the loop moves on to the next candidate with the outcomes
    that remain, leaving the registry as it found it.
   */
  lemma PinnedLeasedCandidateMovesOn(reg: Registry, host: Option<string>, exclude: set<int>, port: int,
                                     rest: seq<int>, hosts: seq<Host>, oracle: seq<ProbeOutcome>)
    requires port != 0 && port !in exclude && !SingleProbe(host, port)
    requires |hosts| <= |oracle| && forall i :: 0 <= i < |hosts| ==> HostPasses(oracle[i])
    requires Leased(reg, port)
    ensures var r := AllocateFrom(reg, host, exclude, [port] + rest, hosts, oracle);
            var next := AllocateFrom(reg, host, exclude, rest, hosts, oracle[|hosts|..]);
            && r.result == next.result && r.registry == next.registry
            && r.calls == seq(|hosts|, i requires 0 <= i < |hosts| => ProbeCall(hosts[i], port)) + next.calls
  {
    var probe := GetAvailablePort(host, port, hosts, oracle);
    assert probe == ProbeHosts(hosts, port, oracle);
    assert probe.outcome == Available(port) && |probe.calls| == |hosts|;
    assert probe.calls == seq(|hosts|, i requires 0 <= i < |hosts| => ProbeCall(hosts[i], port));
    var attempt := TryCandidate(reg, host, port, hosts, oracle);
    assert attempt.outcome == Locked && attempt.calls == probe.calls;
    GivenUpCandidateMovesOn(reg, host, exclude, port, rest, hosts, oracle);
  }

  /**
    A candidate that is not excluded and whose attempt acquires a port ends the loop:
    that port is returned and leased, after the attempt's probes only.
   */
  lemma AcquiredAttemptIsReturned(reg: Registry, host: Option<string>, exclude: set<int>, port: int,
                                  rest: seq<int>, hosts: seq<Host>, oracle: seq<ProbeOutcome>)
    requires port !in exclude
    requires TryCandidate(reg, host, port, hosts, oracle).outcome.Acquired?
    ensures var a := TryCandidate(reg, host, port, hosts, oracle);
            AllocateFrom(reg, host, exclude, [port] + rest, hosts, oracle)
              == Allocation(Ok(a.outcome.port), Lease(reg, a.outcome.port), a.calls)
  {
    assert ([port] + rest)[0] == port;
  }

  /**
    A candidate that is not excluded and whose attempt runs out of outcomes ends the
    loop as running out, with the registry unchanged; it is never reported as found.
   */
  lemma ExhaustedAttemptIsReported(reg: Registry, host: Option<string>, exclude: set<int>, port: int,
                                   rest: seq<int>, hosts: seq<Host>, oracle: seq<ProbeOutcome>)
    requires port !in exclude
    requires TryCandidate(reg, host, port, hosts, oracle).outcome.OutOfOutcomes?
    ensures AllocateFrom(reg, host, exclude, [port] + rest, hosts, oracle)
              == Allocation(Err(OracleExhausted), reg, TryCandidate(reg, host, port, hosts, oracle).calls)
  {
    assert ([port] + rest)[0] == port;
  }

  /**
    A candidate that is not excluded and is given up, as leased or refused with
    EADDRINUSE or EACCES, hands the loop to the next candidate with the outcomes its
    attempt left unused.
   */
  lemma GivenUpCandidateMovesOn(reg: Registry, host: Option<string>, exclude: set<int>, port: int,
                                rest: seq<int>, hosts: seq<Host>, oracle: seq<ProbeOutcome>)
    requires port !in exclude
    requires var o := TryCandidate(reg, host, port, hosts, oracle).outcome;
             o.Locked? || (o.Failed? && SkipsCandidate(o.err))
    ensures var a := TryCandidate(reg, host, port, hosts, oracle);
            var next := AllocateFrom(reg, host, exclude, rest, hosts, oracle[|a.calls|..]);
            AllocateFrom(reg, host, exclude, [port] + rest, hosts, oracle)
              == Allocation(next.result, next.registry, a.calls + next.calls)
  {
    assert ([port] + rest)[0] == port && ([port] + rest)[1..] == rest;
  }

  /**
    With a host set, a pinned candidate that is not excluded and whose probe binds an
    unleased port is returned after that one probe, and the port is leased.
   */
  lemma PinnedHostUnleasedPortIsReturned(reg: Registry, host: string, exclude: set<int>, port: int,
                                         rest: seq<int>, hosts: seq<Host>, oracle: seq<ProbeOutcome>)
    requires host != "" && port !in exclude
    requires |oracle| > 0 && oracle[0].Bound? && !Leased(reg, oracle[0].port)
    ensures AllocateFrom(reg, Some(host), exclude, [port] + rest, hosts, oracle)
              == Allocation(Ok(oracle[0].port), Lease(reg, oracle[0].port), [ProbeCall(Some(host), port)])
  {
    AcquiredAttemptIsReturned(reg, Some(host), exclude, port, rest, hosts, oracle);
  }

  /**
    A candidate whose probe fails with EADDRINUSE or EACCES is given up in favour of
    the next one; any other code, or none, aborts the allocation with that error.
   */
  lemma CandidateErrorClassification(reg: Registry, host: Option<string>, exclude: set<int>, port: int,
                                     rest: seq<int>, hosts: seq<Host>, oracle: seq<ProbeOutcome>, e: ProbeError)
    requires port !in exclude && SingleProbe(host, port)
    requires |oracle| > 0 && oracle[0] == Refused(e)
    ensures var r := AllocateFrom(reg, host, exclude, [port] + rest, hosts, oracle);
            var next := AllocateFrom(reg, host, exclude, rest, hosts, oracle[1..]);
            && (SkipsCandidate(e) ==> r.result == next.result && r.calls == [ProbeCall(host, port)] + next.calls)
            && (!SkipsCandidate(e) ==> r.result == Err(ProbeFailed(e)) && r.calls == [ProbeCall(host, port)])
  {
    assert ([port] + rest)[1..] == rest;
  }

  /**
    Without a preferred port (or with the falsy preferred port `0`) only the fallback
    is ever probed, on the configured host.
   */
  lemma DefaultOptionsProbeOnlyFallback(reg: Registry, options: Options, interfaces: seq<Option<seq<string>>>,
                                        oracle: seq<ProbeOutcome>)
    requires options.port == NoPort || options.port == SinglePort(0) || options.port == PortList([])
    ensures var r := GetPorts(reg, options, interfaces, oracle);
            forall i :: 0 <= i < |r.calls| ==> r.calls[i] == ProbeCall(options.host, 0)
  {
  }

  /**
    `{port: [5000], exclude: [5000]}`: the preferred port is never probed; the fallback
    is, and its first unleased port is the result.
   */
  lemma ExcludedPreferenceFallsBack(reg: Registry, host: Option<string>, interfaces: seq<Option<seq<string>>>,
                                    oracle: seq<ProbeOutcome>)
    requires |oracle| > 0 && oracle[0].Bound? && !Leased(reg, oracle[0].port)
    ensures var r := GetPorts(reg, Options(PortList([5000]), Entries([Num(FromInt(5000))], true), host), interfaces, oracle);
            && r.calls == [ProbeCall(host, 0)]
            && r.result == Ok(oracle[0].port)
  {
    var items := [Num(FromInt(5000))];
    assert ValidEntry(items[0]) && EntryPort(items[0]) == 5000;
    assert items[1..] == [];
    var none: set<int> := {};
    assert CheckEntries(items[1..]) == Ok(none);
    assert CheckEntries(items) == Ok({5000} + none);
    assert {5000} + none == {5000};
    assert ValidateExclude(Entries(items, true)) == Ok({5000});
    var candidates := CandidateSequence(PreferredPorts(PortList([5000])));
    assert candidates == [5000, 0] && candidates[1..] == [0];
    FallbackTakesFirstUnleased(reg, host, GetLocalHosts(interfaces), oracle, 0);
  }

  /**
    Two allocations separated by fewer than two ticks never return the same port, whatever
    other allocations happen in between: the first port stays leased until the second tick.
   */
  lemma NoReuseWithinLeaseWindow(reg: Registry, first: Options, second: Options,
                                 interfaces: seq<Option<seq<string>>>,
                                 oracle1: seq<ProbeOutcome>, oracle2: seq<ProbeOutcome>, between: seq<Event>)
    requires GetPorts(reg, first, interfaces, oracle1).result.Ok?
    requires Ticks(between) < 2
    requires forall i :: 0 <= i < |between| ==>
               between[i] != LeaseEvent(GetPorts(reg, first, interfaces, oracle1).result.value)
    ensures var a := GetPorts(reg, first, interfaces, oracle1);
            var b := GetPorts(Replay(a.registry, between), second, interfaces, oracle2);
            b.result.Ok? ==> b.result.value != a.result.value
  {
    var a := GetPorts(reg, first, interfaces, oracle1);
    LeaseExpiresAfterTwoTicks(reg, a.result.value, between);
  }

  /**
    After two ticks without a new lease of it, a previously returned port is eligible
    again: pinning it, with every host accepting it, returns it.
   */
  lemma ReusableAfterTwoTicks(reg: Registry, first: Options, interfaces: seq<Option<seq<string>>>,
                              oracle1: seq<ProbeOutcome>, oracle2: seq<ProbeOutcome>, between: seq<Event>)
    requires GetPorts(reg, first, interfaces, oracle1).result.Ok?
    requires GetPorts(reg, first, interfaces, oracle1).result.value != 0
    requires Ticks(between) >= 2
    requires forall i :: 0 <= i < |between| ==>
               between[i] != LeaseEvent(GetPorts(reg, first, interfaces, oracle1).result.value)
    requires |GetLocalHosts(interfaces)| <= |oracle2|
    requires forall i :: 0 <= i < |GetLocalHosts(interfaces)| ==> HostPasses(oracle2[i])
    ensures var a := GetPorts(reg, first, interfaces, oracle1);
            var p := a.result.value;
            GetPorts(Replay(a.registry, between), Options(SinglePort(p), NoExclude, None), interfaces, oracle2).result == Ok(p)
  {
    var a := GetPorts(reg, first, interfaces, oracle1);
    var p := a.result.value;
    LeaseExpiresAfterTwoTicks(reg, p, between);
    UnleasedPinnedPortIsReturned(Replay(a.registry, between), p, interfaces, oracle2);
  }

  /**
    A pinned, unleased port that every local host accepts is itself the result, and it
    is leased afterwards.
   */
  lemma UnleasedPinnedPortIsReturned(reg: Registry, port: int, interfaces: seq<Option<seq<string>>>,
                                     oracle: seq<ProbeOutcome>)
    requires port != 0 && !Leased(reg, port)
    requires |GetLocalHosts(interfaces)| <= |oracle|
    requires forall i :: 0 <= i < |GetLocalHosts(interfaces)| ==> HostPasses(oracle[i])
    ensures var r := GetPorts(reg, Options(SinglePort(port), NoExclude, None), interfaces, oracle);
            r.result == Ok(port) && Leased(r.registry, port)
  {
    var hosts := GetLocalHosts(interfaces);
    var probe := GetAvailablePort(None, port, hosts, oracle);
    assert probe == ProbeHosts(hosts, port, oracle);
    assert probe.outcome == Available(port);
    assert TryCandidate(reg, None, port, hosts, oracle).outcome == Acquired(port);
    assert CandidateSequence(PreferredPorts(SinglePort(port))) == [port, 0];
  }

  /**
    With a pinned host, a pinned candidate whose probe binds a leased port is given up
    (the corrected reading of the lease check, comparing port numbers): in particular
    two allocations on the same host without a tick never both return the same port.
   */
  lemma PinnedHostLeasedPortIsLocked(reg: Registry, host: string, port: int, hosts: seq<Host>,
                                     oracle: seq<ProbeOutcome>)
    requires host != "" && port != 0
    requires |oracle| > 0 && oracle[0].Bound? && Leased(reg, oracle[0].port)
    ensures TryCandidate(reg, Some(host), port, hosts, oracle) == WithCalls(Locked, [ProbeCall(Some(host), port)])
  {
  }

  /**
    The allocations that go wrong as written: the second request for 5000 on 127.0.0.1
    gives 5000 up and falls back to the port the operating system assigns instead.
   */
  lemma PinnedHostSecondRequestRefused(interfaces: seq<Option<seq<string>>>)
    ensures var options := Options(SinglePort(5000), NoExclude, Some("127.0.0.1"));
            var first := GetPorts(Empty, options, interfaces, [Bound(5000)]);
            var second := GetPorts(first.registry, options, interfaces, [Bound(5000), Bound(6000)]);
            && first.result == Ok(5000)
            && second.result == Ok(6000)
            && second.calls == [ProbeCall(Some("127.0.0.1"), 5000), ProbeCall(Some("127.0.0.1"), 0)]
  {
    var options := Options(SinglePort(5000), NoExclude, Some("127.0.0.1"));
    var candidates := CandidateSequence(PreferredPorts(options.port));
    assert candidates == [5000, 0] && candidates[1..] == [0] && candidates[1..][1..] == [];
    var first := GetPorts(Empty, options, interfaces, [Bound(5000)]);
    assert first.result == Ok(5000);
    var oracle := [Bound(5000), Bound(6000)];
    var hosts := GetLocalHosts(interfaces);
    var host := Some("127.0.0.1");
    assert first.registry == Registry({}, {5000});
    PinnedHostLeasedPortIsLocked(first.registry, "127.0.0.1", 5000, hosts, oracle);
    assert oracle[1..] == [Bound(6000)];
    var fallback := TryCandidate(first.registry, host, 0, hosts, oracle[1..]);
    assert fallback == WithCalls(Acquired(6000), [ProbeCall(host, 0)]);
    var tail := AllocateFrom(first.registry, host, {}, [0], hosts, oracle[1..]);
    assert tail.result == Ok(6000) && tail.calls == [ProbeCall(host, 0)];
  }

  /**
    In multi-host mode the same classification applies to the error of the first host
    that fails with an error other than EADDRNOTAVAIL or EINVAL: EADDRINUSE or EACCES
    moves on to the next candidate after the k + 1 probes made so far; any other code,
    or none, aborts the allocation with that error.
   */
  lemma MultiHostCandidateErrorClassification(reg: Registry, host: Option<string>, exclude: set<int>, port: int,
                                              rest: seq<int>, hosts: seq<Host>, oracle: seq<ProbeOutcome>, k: nat)
    requires port !in exclude && !SingleProbe(host, port)
    requires k < |hosts| && k < |oracle|
    requires forall i :: 0 <= i < k ==> HostPasses(oracle[i])
    requires oracle[k].Refused? && !SkipsHost(oracle[k].err)
    ensures var e := oracle[k].err;
            var r := AllocateFrom(reg, host, exclude, [port] + rest, hosts, oracle);
            var next := AllocateFrom(reg, host, exclude, rest, hosts, oracle[k + 1..]);
            && (SkipsCandidate(e) ==>
                  r.result == next.result && r.registry == next.registry && |r.calls| == k + 1 + |next.calls|)
            && (!SkipsCandidate(e) ==>
                  r.result == Err(ProbeFailed(e)) && r.registry == reg && |r.calls| == k + 1)
  {
    MultiHostVerdict(hosts, port, oracle, k);
    assert ([port] + rest)[1..] == rest;
  }

  /**
    Every candidate that is not excluded was given up: it was locked, or its probing
    failed with EADDRINUSE or EACCES. Each candidate sees the outcomes its predecessors
    left over.
   */
  predicate AllRejected(reg: Registry, host: Option<string>, exclude: set<int>, candidates: seq<int>,
                        hosts: seq<Host>, oracle: seq<ProbeOutcome>)
    decreases |candidates|
  {
    if |candidates| == 0 then true
    else if candidates[0] in exclude then AllRejected(reg, host, exclude, candidates[1..], hosts, oracle)
    else
      var attempt := TryCandidate(reg, host, candidates[0], hosts, oracle);
      && (attempt.outcome.Locked? || (attempt.outcome.Failed? && SkipsCandidate(attempt.outcome.err)))
      && AllRejected(reg, host, exclude, candidates[1..], hosts, oracle[|attempt.calls|..])
  }

  /** "No available ports found" is the result exactly when every candidate was given up. */
  lemma {:induction false} NoAvailablePortsExactly(reg: Registry, host: Option<string>, exclude: set<int>,
                                                   candidates: seq<int>, hosts: seq<Host>, oracle: seq<ProbeOutcome>)
    ensures AllocateFrom(reg, host, exclude, candidates, hosts, oracle).result == Err(NoAvailablePorts)
            <==> AllRejected(reg, host, exclude, candidates, hosts, oracle)
    decreases |candidates|
  {
    if |candidates| > 0 {
      if candidates[0] in exclude {
        NoAvailablePortsExactly(reg, host, exclude, candidates[1..], hosts, oracle);
      } else {
        var attempt := TryCandidate(reg, host, candidates[0], hosts, oracle);
        NoAvailablePortsExactly(reg, host, exclude, candidates[1..], hosts, oracle[|attempt.calls|..]);
      }
    }
  }

  /**
    A pinned port on a pinned host refused with EADDRINUSE, then the fallback refused
    with EACCES: both candidates are given up and no port is found.
   */
  lemma EveryCandidateRefused(interfaces: seq<Option<seq<string>>>)
    ensures var host := Some("127.0.0.1");
            var oracle := [Refused(ProbeError(Some("EADDRINUSE"))), Refused(ProbeError(Some("EACCES")))];
            var r := GetPorts(Empty, Options(SinglePort(5000), NoExclude, host), interfaces, oracle);
            && r.result == Err(NoAvailablePorts)
            && r.calls == [ProbeCall(host, 5000), ProbeCall(host, 0)]
  {
    var host := Some("127.0.0.1");
    var oracle := [Refused(ProbeError(Some("EADDRINUSE"))), Refused(ProbeError(Some("EACCES")))];
    var hosts := GetLocalHosts(interfaces);
    assert CandidateSequence(PreferredPorts(SinglePort(5000))) == [5000, 0];
    assert oracle[1..] == [Refused(ProbeError(Some("EACCES")))];
    var tail := AllocateFrom(Empty, host, {}, [0], hosts, oracle[1..]);
    assert [0][1..] == [];
    assert tail.result == Err(NoAvailablePorts) && tail.calls == [ProbeCall(host, 0)];
  }

  /** A pinned port that the exclude option covers, while `0` is not covered: only the fallback is probed. */
  lemma ExcludedPinnedPortProbesOnlyFallback(reg: Registry, port: int, exclude: ExcludeOption,
                                             interfaces: seq<Option<seq<string>>>, oracle: seq<ProbeOutcome>)
    requires port != 0
    requires ValidateExclude(exclude).Ok? && port in ValidateExclude(exclude).value
    requires 0 !in ValidateExclude(exclude).value
    ensures var r := GetPorts(reg, Options(SinglePort(port), exclude, None), interfaces, oracle);
            forall i :: 0 <= i < |r.calls| ==> r.calls[i] == ProbeCall(None, 0)
  {
    var excluded := ValidateExclude(exclude).value;
    var candidates := CandidateSequence(PreferredPorts(SinglePort(port)));
    assert candidates == [port, 0] && candidates[1..] == [0] && candidates[1..][1..] == [];
    var hosts := GetLocalHosts(interfaces);
    var fallback := AllocateFrom(reg, None, excluded, [0], hosts, oracle);
    assert forall i :: 0 <= i < |fallback.calls| ==> fallback.calls[i] == ProbeCall(None, 0);
  }

  /**
    In the corrected reading a `portNumbers(3000, 3010)` generator passed as `exclude`
    keeps every port of the range from being probed: with `port: 3000` only the
    fallback is probed.
   */
  lemma GeneratorExcludeHonoured(reg: Registry, interfaces: seq<Option<seq<string>>>, oracle: seq<ProbeOutcome>)
    ensures var generator := Entries(AsJsValues(PortRange.PortNumbers(FromInt(3000), FromInt(3010)).value), false);
            var r := GetPorts(reg, Options(SinglePort(3000), generator, None), interfaces, oracle);
            forall i :: 0 <= i < |r.calls| ==> r.calls[i] == ProbeCall(None, 0)
  {
    var generator := Entries(AsJsValues(PortRange.PortNumbers(FromInt(3000), FromInt(3010)).value), false);
    PortNumbersAsExclude(3000, 3010);
    ExcludedPinnedPortProbesOnlyFallback(reg, 3000, generator, interfaces, oracle);
  }
}

=== FILE: as_written.dfy ===
/**
  The single-probe path of `getPorts` as the source writes it. When a host is pinned,
  or the candidate is `0`, `checkAvailablePort` resolves with `server.address()`: a
  new object holding the bound port, not the port number. That object is what the
  lease check looks up and what is recorded in `young`, and a JavaScript `Set`
  compares objects by identity. Object identity is modelled by a serial number that
  each probe draws afresh.
 */
module AsWritten {
  import opened Base
  import opened JsNumbers
  import opened PortOptions
  import opened LocalHosts
  import opened LeaseRegistry
  import opened Probing
  import opened Allocator
  import PortRange

  /** A value in the lease sets: a port number (multi-host path) or an address object. */
  datatype Leasable = PortNumber(n: int) | AddressObject(serial: nat, port: int)

  /** `lockedPorts` holding whatever values were leased, and the next fresh object identity. */
  datatype ObjectRegistry = ObjectRegistry(older: set<Leasable>, young: set<Leasable>, nextSerial: nat)

  /** Every address object in the sets was created before the next one will be. */
  ghost predicate Allocated(r: ObjectRegistry) {
    forall x :: (x in r.older || x in r.young) && x.AddressObject? ==> x.serial < r.nextSerial
  }

  /** Some leased value stands for port `p`. */
  ghost predicate HoldsPort(r: ObjectRegistry, p: int) {
    exists x :: (x in r.older || x in r.young)
                && (x.PortNumber? ==> x.n == p) && (x.AddressObject? ==> x.port == p)
  }

  const EmptyObjects: ObjectRegistry := ObjectRegistry({}, {}, 0)

  datatype AsWrittenAttempt =
    | Got(value: Leasable, registry: ObjectRegistry)
    | LockedOut
    | ThrewError(err: ProbeError)
    | RanOut

  /**
    One candidate in single-probe mode as written: the probe's address object is looked
    up in the lease sets; while it is found, a pinned candidate is given up and the
    fallback re-probes; otherwise the object is leased and returned.
   */
  function AttemptAsWritten(reg: ObjectRegistry, port: int, oracle: seq<ProbeOutcome>): (r: AsWrittenAttempt)
    decreases |oracle|
    ensures Allocated(reg) ==> !r.LockedOut?
    ensures Allocated(reg) && |oracle| > 0 && oracle[0].Bound? ==>
              r.Got? && r.value.AddressObject? && r.value.port == oracle[0].port && Allocated(r.registry)
  {
    if |oracle| == 0 then RanOut
    else match oracle[0]
      case Refused(e) => ThrewError(e)
      case Bound(p) =>
        var address := AddressObject(reg.nextSerial, p);
        var drawn := reg.(nextSerial := reg.nextSerial + 1);
        if address in drawn.older || address in drawn.young then
          if port != 0 then LockedOut else AttemptAsWritten(drawn, port, oracle[1..])
        else Got(address, drawn.(young := drawn.young + {address}))
  }

  /**
    The discrepancy: on a pinned host, a port that is still leased is handed out again.
    Two back-to-back allocations of port 5000 on host 127.0.0.1 both succeed with 5000.
   */
  lemma LeasedPortHandedOutTwice()
    ensures var first := AttemptAsWritten(EmptyObjects, 5000, [Bound(5000)]);
            var second := AttemptAsWritten(first.registry, 5000, [Bound(5000)]);
            && first.Got? && first.value.port == 5000
            && HoldsPort(first.registry, 5000)
            && second.Got? && second.value.port == 5000
  {
    var first := AttemptAsWritten(EmptyObjects, 5000, [Bound(5000)]);
    assert first.value in first.registry.young;
  }

  /**
    The `exclude` handling as written: the entries are checked in one pass, and
    `new Set(excludeIterable)` then reads the iterable a second time. A generator is
    used up by the first pass, so the set built from it is empty.
   */
  function ValidateExcludeAsWritten(e: ExcludeOption): (r: Result<set<int>, ExcludeFault>)
    ensures r.Ok? <==> ValidateExclude(e).Ok?
    ensures r.Err? ==> r == ValidateExclude(e)
    ensures e.Entries? && !e.reiterable && r.Ok? ==> r.value == {}
    ensures !(e.Entries? && !e.reiterable) ==> r == ValidateExclude(e)
  {
    if e.Entries? && !e.reiterable then
      match CheckEntries(e.items)
      case Err(fault) => Err(fault)
      case Ok(_) => Ok({})
    else ValidateExclude(e)
  }

  /**
    The discrepancy: `getPorts({port: 3000, exclude: portNumbers(3000, 3010)})` passes
    validation, excludes nothing, probes 3000 first, and returns it when every local host
    accepts it and it is not leased.
   */
  lemma GeneratorExcludeExcludesNothing(reg: Registry, interfaces: seq<Option<seq<string>>>, oracle: seq<ProbeOutcome>)
    requires !Leased(reg, 3000)
    requires |GetLocalHosts(interfaces)| <= |oracle|
    requires forall i :: 0 <= i < |GetLocalHosts(interfaces)| ==> HostPasses(oracle[i])
    ensures var generator := Entries(AsJsValues(PortRange.PortNumbers(FromInt(3000), FromInt(3010)).value), false);
            var exclude := ValidateExcludeAsWritten(generator);
            var r := AllocateFrom(reg, None, exclude.value, CandidateSequence(PreferredPorts(SinglePort(3000))),
                                  GetLocalHosts(interfaces), oracle);
            && exclude.Ok? && exclude.value == {}
            && r.calls[0] == ProbeCall(None, 3000)
            && r.result == Ok(3000)
  {
    PortNumbersAsExclude(3000, 3010);
    var hosts := GetLocalHosts(interfaces);
    var probe := GetAvailablePort(None, 3000, hosts, oracle);
    assert probe == ProbeHosts(hosts, 3000, oracle);
    assert probe.outcome == Available(3000);
    assert TryCandidate(reg, None, 3000, hosts, oracle).outcome == Acquired(3000);
    assert CandidateSequence(PreferredPorts(SinglePort(3000))) == [3000, 0];
  }
}

=== FILE: base.dfy ===
/** Failure-carrying wrappers shared by the port-selection model. */
module Base {

  /** A value that may be absent; `None` plays the role of JavaScript's `undefined`. */
  datatype Option<+T> = None | Some(value: T)

  /** The outcome of an operation that either returns a value or throws an error. */
  datatype Result<+T, +E> = Ok(value: T) | Err(error: E)
}

=== FILE: js_numbers.dfy ===
/**
  JavaScript numbers and the dynamically typed values the allocator's options may hold.
  A number is either a finite value, modelled exactly as a `real`, or one of the
  non-finite values NaN and the two infinities.
 */
module JsNumbers {

  datatype JsNumber = Finite(v: real) | NaN | PosInfinity | NegInfinity

  /** Number.MAX_SAFE_INTEGER, that is 2^53 - 1. */
  const MaxSafeInteger: int := 0x1F_FFFF_FFFF_FFFF

  /** Number.isInteger: finite and without a fractional part. */
  predicate IsInteger(x: JsNumber) {
    x.Finite? && x.v == x.v.Floor as real
  }

  /** The integer an integral number denotes. */
  function IntValue(x: JsNumber): int
    requires IsInteger(x)
  {
    x.v.Floor
  }

  /** Number.isSafeInteger: an integer whose magnitude is at most 2^53 - 1. */
  predicate IsSafeInteger(x: JsNumber) {
    IsInteger(x) && -MaxSafeInteger <= IntValue(x) <= MaxSafeInteger
  }

  /** The number that denotes the integer `n`. */
  function FromInt(n: int): (x: JsNumber)
    ensures IsInteger(x) && IntValue(x) == n
  {
    Finite(n as real)
  }

  /** A dynamically typed value: `typeof v === 'number'` holds exactly of `Num`. */
  datatype JsValue = Num(num: JsNumber) | NonNumber
}

=== FILE: lease_registry.dfy ===
/**
  The two-generation lease registry (`lockedPorts`). Ports handed out recently are
  recorded in `young`; the periodic tick moves `young` to `old` and starts a new,
  empty `young`, so a lease lives between one and two tick intervals.
 */
module LeaseRegistry {

  /** `older` is the source's `old` generation (`old` is a keyword here). */
  datatype Registry = Registry(older: set<int>, young: set<int>)

  /** A port in either generation must not be handed out again. */
  predicate Leased(r: Registry, p: int) {
    p in r.older || p in r.young
  }

  /** The two generations never share a port. */
  predicate Disjoint(r: Registry) {
    r.older !! r.young
  }

  /** `lockedPorts.young.add(p)`: `p` becomes leased and nothing else changes. */
  function Lease(r: Registry, p: int): (r': Registry)
    ensures forall q :: Leased(r', q) <==> Leased(r, q) || q == p
    ensures r'.older == r.older && p in r'.young
    ensures Disjoint(r) && !Leased(r, p) ==> Disjoint(r')
  {
    r.(young := r.young + {p})
  }

  /** The interval callback: the old generation is dropped and the young one ages. */
  function Tick(r: Registry): (r': Registry)
    ensures forall q :: Leased(r', q) <==> q in r.young
    ensures Disjoint(r')
  {
    Registry(r.young, {})
  }

  /** The registry before any allocation. */
  const Empty: Registry := Registry({}, {})

  /** What can happen to the registry between two observations. */
  datatype Event = TickEvent | LeaseEvent(port: int)

  function Replay(r: Registry, events: seq<Event>): Registry
    decreases |events|
  {
    if |events| == 0 then r
    else
      var next := match events[0]
        case TickEvent => Tick(r)
        case LeaseEvent(p) => Lease(r, p);
      Replay(next, events[1..])
  }

  function Ticks(events: seq<Event>): nat
    decreases |events|
  {
    if |events| == 0 then 0
    else (if events[0].TickEvent? then 1 else 0) + Ticks(events[1..])
  }

  /**
    Whether `p` is leased after a run of events that never leases `p` again: no tick
    leaves it as it was, one tick keeps it only if it was young, two ticks free it.
   */
  lemma {:induction false} LeaseLifetime(r: Registry, p: int, events: seq<Event>)
    requires forall i :: 0 <= i < |events| ==> events[i] != LeaseEvent(p)
    ensures Ticks(events) == 0 ==> (Leased(Replay(r, events), p) <==> Leased(r, p))
    ensures Ticks(events) == 0 ==> (p in Replay(r, events).young <==> p in r.young)
    ensures Ticks(events) == 1 ==> (Leased(Replay(r, events), p) <==> p in r.young)
    ensures Ticks(events) >= 2 ==> !Leased(Replay(r, events), p)
    decreases |events|
  {
    if |events| > 0 {
      var next := match events[0]
        case TickEvent => Tick(r)
        case LeaseEvent(q) => Lease(r, q);
      assert Replay(r, events) == Replay(next, events[1..]);
      LeaseLifetime(next, p, events[1..]);
    }
  }

  /**
    A port leased once and never leased again is still blocked after one tick and
    free after the second.
   */
  lemma LeaseExpiresAfterTwoTicks(r: Registry, p: int, events: seq<Event>)
    requires forall i :: 0 <= i < |events| ==> events[i] != LeaseEvent(p)
    ensures Leased(Replay(Lease(r, p), events), p) <==> Ticks(events) < 2
  {
    LeaseLifetime(Lease(r, p), p, events);
  }

  /** Ticks and leases of unleased ports keep the generations disjoint. */
  lemma {:induction false} ReplayKeepsDisjoint(r: Registry, events: seq<Event>)
    requires Disjoint(r)
    requires forall i :: 0 <= i < |events| && events[i].LeaseEvent? ==>
               !Leased(Replay(r, events[..i]), events[i].port)
    ensures Disjoint(Replay(r, events))
    decreases |events|
  {
    if |events| > 0 {
      var next := Replay(r, events[..1]);
      assert events[..0] == [];
      assert Replay(r, events[..1]) == Replay(if events[0].TickEvent? then Tick(r) else Lease(r, events[0].port), []);
      forall i | 0 <= i < |events[1..]| && events[1..][i].LeaseEvent?
        ensures !Leased(Replay(next, events[1..][..i]), events[1..][i].port)
      {
        ReplayAppend(r, events[..1], events[1..][..i]);
        assert events[..1] + events[1..][..i] == events[..i + 1];
      }
      ReplayKeepsDisjoint(next, events[1..]);
      ReplayAppend(r, events[..1], events[1..]);
      assert events[..1] + events[1..] == events;
    }
  }

  /** Replaying two runs one after the other is replaying their concatenation. */
  lemma {:induction false} ReplayAppend(r: Registry, a: seq<Event>, b: seq<Event>)
    ensures Replay(r, a + b) == Replay(Replay(r, a), b)
    decreases |a|
  {
    if |a| > 0 {
      assert (a + b)[1..] == a[1..] + b;
      ReplayAppend(if a[0].TickEvent? then Tick(r) else Lease(r, a[0].port), a[1..], b);
    } else {
      assert a + b == b;
    }
  }
}

=== FILE: local_hosts.dfy ===
/**
  `getLocalHosts`: the addresses to probe when no host is pinned. The interface
  listing of the operating system is an input: one entry per interface, `None`
  for an interface whose entry is `undefined`, otherwise its configured addresses.
  The JavaScript `Set` is modelled as a duplicate-free sequence in insertion order.
 */
module LocalHosts {
  import opened Base

  /** A bind target: `None` is `undefined` (the listener's default host). */
  type Host = Option<string>

  /** The IPv4 wildcard address. */
  const Wildcard: Host := Some("0.0.0.0")

  ghost predicate NoDuplicates<T>(s: seq<T>) {
    forall i, j :: 0 <= i < j < |s| ==> s[i] != s[j]
  }

  /** `address` is configured on some interface of the listing. */
  ghost predicate Configured(interfaces: seq<Option<seq<string>>>, address: string) {
    exists i :: 0 <= i < |interfaces| && interfaces[i].Some? && address in interfaces[i].value
  }

  /** `Set.prototype.add`: append `h` unless it is already present. */
  function Add(hosts: seq<Host>, h: Host): (r: seq<Host>)
    ensures NoDuplicates(hosts) ==> NoDuplicates(r)
    ensures forall x :: x in r <==> x in hosts || x == h
    ensures hosts <= r
  {
    if h in hosts then hosts else hosts + [h]
  }

  /** The inner loop: add every address of one interface. */
  function AddAddresses(hosts: seq<Host>, addresses: seq<string>): (r: seq<Host>)
    decreases |addresses|
    ensures NoDuplicates(hosts) ==> NoDuplicates(r)
    ensures forall x :: x in r <==> x in hosts || (x.Some? && x.value in addresses)
    ensures hosts <= r
  {
    if |addresses| == 0 then hosts
    else AddAddresses(Add(hosts, Some(addresses[0])), addresses[1..])
  }

  /** The outer loop over `Object.values(interfaces)`, skipping `undefined` entries. */
  function AddInterfaces(hosts: seq<Host>, interfaces: seq<Option<seq<string>>>): (r: seq<Host>)
    decreases |interfaces|
    ensures NoDuplicates(hosts) ==> NoDuplicates(r)
    ensures forall x :: x in r <==> x in hosts || (x.Some? && Configured(interfaces, x.value))
    ensures hosts <= r
  {
    if |interfaces| == 0 then hosts
    else
      var next := if interfaces[0].Some? then AddAddresses(hosts, interfaces[0].value) else hosts;
      var r := AddInterfaces(next, interfaces[1..]);
      assert forall a :: Configured(interfaces, a) <==>
        (interfaces[0].Some? && a in interfaces[0].value) || Configured(interfaces[1..], a) by {
        forall a | Configured(interfaces[1..], a)
          ensures Configured(interfaces, a)
        {
          var i :| 0 <= i < |interfaces[1..]| && interfaces[1..][i].Some? && a in interfaces[1..][i].value;
          assert interfaces[i + 1] == interfaces[1..][i];
        }
        forall a | Configured(interfaces, a) && !(interfaces[0].Some? && a in interfaces[0].value)
          ensures Configured(interfaces[1..], a)
        {
          var i :| 0 <= i < |interfaces| && interfaces[i].Some? && a in interfaces[i].value;
          assert i != 0;
          assert interfaces[1..][i - 1] == interfaces[i];
        }
      }
      r
  }

  /**
    The host set: `undefined` first, the IPv4 wildcard second, then every configured
    address once.
   */
  function GetLocalHosts(interfaces: seq<Option<seq<string>>>): (r: seq<Host>)
    ensures |r| >= 2 && r[0] == None && r[1] == Wildcard
    ensures NoDuplicates(r)
    ensures forall x :: x in r <==> x == None || x == Wildcard || (x.Some? && Configured(interfaces, x.value))
  {
    AddInterfaces([None, Wildcard], interfaces)
  }
}

=== FILE: port_options.dfy ===
/**
  The options `getPorts` accepts and their normalisation: the preferred ports become
  the candidate sequence with its trailing `0` fallback, and the `exclude` entries
  are validated and collected into a set.
 */
module PortOptions {
  import opened Base
  import opened JsNumbers
  import PortRange

  /**
    The `port` option: absent, a single number, an iterable of numbers, or a truthy
    value that is neither (a boxed `Number`, say). `SinglePort(0)` also stands for a
    single `NaN`: both are falsy.
   */
  datatype PortOption = NoPort | SinglePort(port: int) | PortList(ports: seq<int>) | NonIterablePort

  /**
    The `exclude` option: absent (or any other falsy value), a truthy value that is
    not iterable, or an iterable whose entries are dynamically typed. An iterable is
    `reiterable` when asking it for a new iterator starts over (an array, a `Set`);
    a generator object is not: its iterator is itself, used up after one pass.
   */
  datatype ExcludeOption = NoExclude | NotIterable | Entries(items: seq<JsValue>, reiterable: bool)

  /** The part of `Options` the allocator reads; `host` is `undefined` when `None`. */
  datatype Options = Options(port: PortOption, exclude: ExcludeOption, host: Option<string>)

  /** The TypeError `getPorts` throws for a malformed `exclude` option. */
  datatype ExcludeFault =
    | ExcludeNotIterable                  // The `exclude` option must be an iterable.
    | EntryNotNumber                      // Each item in the `exclude` option must be a number ...
    | EntryNotSafeInteger(entry: JsNumber) // Number <entry> in the exclude option is not a safe integer ...

  /**
    `if (options.port)`: a single number is used only when it is truthy, i.e. not 0.
    A non-iterable port makes `yield * ports` throw before any candidate is produced,
    which `getPorts` models; it has no preferred ports.
   */
  function PreferredPorts(p: PortOption): (r: seq<int>)
    requires !p.NonIterablePort?
    ensures p.NoPort? ==> r == []
    ensures p.SinglePort? ==> (p.port == 0 <==> r == []) && (p.port != 0 <==> r == [p.port])
    ensures p.PortList? ==> r == p.ports
  {
    match p
    case NoPort => []
    case SinglePort(n) => if n == 0 then [] else [n]
    case PortList(ports) => ports
  }

  /** `portCheckSequence`: every preferred port in the given order, then the fallback `0`. */
  function CandidateSequence(preferred: seq<int>): (r: seq<int>)
    ensures |r| == |preferred| + 1
    ensures r[..|preferred|] == preferred
    ensures r[|preferred|] == 0
  {
    preferred + [0]
  }

  /** An entry the exclude check accepts: a number that is a safe integer. */
  predicate ValidEntry(e: JsValue) {
    e.Num? && IsSafeInteger(e.num)
  }

  /** The TypeError the exclude check raises for an entry it rejects. */
  function EntryFault(e: JsValue): ExcludeFault
    requires !ValidEntry(e)
  {
    if e.NonNumber? then EntryNotNumber else EntryNotSafeInteger(e.num)
  }

  /** The port number an accepted entry denotes. */
  function EntryPort(e: JsValue): int
    requires ValidEntry(e)
  {
    IntValue(e.num)
  }

  /**
    The validation loop over the exclude entries followed by `new Set(entries)`.
    It fails on the first rejected entry and otherwise yields exactly the entries' values.
   */
  function CheckEntries(items: seq<JsValue>): (r: Result<set<int>, ExcludeFault>)
    ensures r.Ok? <==> forall i :: 0 <= i < |items| ==> ValidEntry(items[i])
    ensures r.Ok? ==> forall p :: p in r.value <==>
                        exists i :: 0 <= i < |items| && ValidEntry(items[i]) && EntryPort(items[i]) == p
    ensures r.Err? ==> exists k :: 0 <= k < |items| && !ValidEntry(items[k])
                        && r.error == EntryFault(items[k])
                        && forall i :: 0 <= i < k ==> ValidEntry(items[i])
  {
    if |items| == 0 then Ok({})
    else if !ValidEntry(items[0]) then Err(EntryFault(items[0]))
    else
      match CheckEntries(items[1..])
      case Err(f) => Err(f)
      case Ok(rest) => Ok({EntryPort(items[0])} + rest)
  }

  /**
    The `exclude` handling of `getPorts`, read as intended: a TypeError, or the set of
    the entries' values, collected in the same single pass that checks them, so that a
    generator excludes its entries like an array does.
   */
  function ValidateExclude(e: ExcludeOption): (r: Result<set<int>, ExcludeFault>)
    ensures e.NoExclude? ==> r == Ok({})
    ensures e.NotIterable? ==> r == Err(ExcludeNotIterable)
    ensures e.Entries? ==> r == CheckEntries(e.items)
  {
    match e
    case NoExclude => Ok({})
    case NotIterable => Err(ExcludeNotIterable)
    case Entries(items, _) => CheckEntries(items)
  }

  /** The ports of a sequence as the number values an iterable of them would hold. */
  function AsJsValues(ports: seq<int>): (r: seq<JsValue>)
    ensures |r| == |ports|
    ensures forall i :: 0 <= i < |r| ==> r[i] == Num(FromInt(ports[i]))
  {
    seq(|ports|, i requires 0 <= i < |ports| => Num(FromInt(ports[i])))
  }

  /**
    The documented use of `portNumbers` as an `exclude` value, in the corrected reading:
    the generator it returns passes validation and excludes exactly the ports of the range.
   */
  lemma PortNumbersAsExclude(from: int, to: int)
    requires PortRange.InPortRange(from) && PortRange.InPortRange(to) && from <= to
    ensures var r := ValidateExclude(Entries(AsJsValues(PortRange.PortNumbers(FromInt(from), FromInt(to)).value), false));
            r.Ok? && forall p :: p in r.value <==> from <= p <= to
  {
    var ports := PortRange.PortNumbers(FromInt(from), FromInt(to)).value;
    var items := AsJsValues(ports);
    forall i | 0 <= i < |items|
      ensures ValidEntry(items[i]) && EntryPort(items[i]) == ports[i]
    {
      assert ports[i] in ports;
    }
    var r := CheckEntries(items);
    forall p
      ensures p in r.value <==> from <= p <= to
    {
      if from <= p <= to {
        assert ports[p - from] == p;
        assert ValidEntry(items[p - from]) && EntryPort(items[p - from]) == p;
      }
      if p in r.value {
        var i :| 0 <= i < |items| && ValidEntry(items[i]) && EntryPort(items[i]) == p;
        assert ports[i] in ports;
      }
    }
  }
}

=== FILE: port_range.dfy ===
/**
  The `portNumbers(from, to)` helper: it validates its two bounds and then yields
  the ports from `from` up to `to`, one at a time.
 */
module PortRange {
  import opened Base
  import opened JsNumbers

  /** The lowest and highest port `portNumbers` accepts as a bound. */
  const MinPort: int := 1024
  const MaxPort: int := 65535

  /** The error `portNumbers` throws, one constructor per validation check. */
  datatype RangeFault =
    | BoundsNotIntegers   // TypeError: `from` and `to` must be integer numbers
    | FromOutOfRange      // RangeError: 'from' must be between 1024 and 65535
    | ToOutOfRange        // RangeError: 'to' must be between 1024 and 65535
    | ToBelowFrom         // RangeError: `to` must be greater than or equal to `from`

  predicate InPortRange(n: int) {
    MinPort <= n <= MaxPort
  }

  /** Strictly increasing, hence also free of duplicates. */
  ghost predicate StrictlyAscending(s: seq<int>) {
    forall i, j :: 0 <= i < j < |s| ==> s[i] < s[j]
  }

  /**
    The generator's loop `for (port = from; port <= to; port++) yield port`,
    unrolled into the sequence of ports it yields.
   */
  function Ascending(from: int, to: int): (r: seq<int>)
    decreases to - from
    ensures from <= to + 1 ==> |r| == to - from + 1
    ensures from > to ==> r == []
    ensures forall i :: 0 <= i < |r| ==> r[i] == from + i
    ensures StrictlyAscending(r)
    ensures forall n :: n in r <==> from <= n <= to
  {
    if from > to then [] else [from] + Ascending(from + 1, to)
  }

  /** `portNumbers(from, to)`: the four checks in source order, then the range. */
  function PortNumbers(from: JsNumber, to: JsNumber): (r: Result<seq<int>, RangeFault>)
    ensures r == Err(BoundsNotIntegers) <==> !IsInteger(from) || !IsInteger(to)
    ensures r == Err(FromOutOfRange) <==>
              IsInteger(from) && IsInteger(to) && !InPortRange(IntValue(from))
    ensures r == Err(ToOutOfRange) <==>
              IsInteger(from) && IsInteger(to) && InPortRange(IntValue(from))
              && !InPortRange(IntValue(to))
    ensures r == Err(ToBelowFrom) <==>
              IsInteger(from) && IsInteger(to) && InPortRange(IntValue(from))
              && InPortRange(IntValue(to)) && IntValue(from) > IntValue(to)
    ensures r.Ok? ==> IsInteger(from) && IsInteger(to)
                      && InPortRange(IntValue(from)) && InPortRange(IntValue(to))
                      && IntValue(from) <= IntValue(to)
  {
    if !IsInteger(from) || !IsInteger(to) then Err(BoundsNotIntegers)
    else if !InPortRange(IntValue(from)) then Err(FromOutOfRange)
    else if !InPortRange(IntValue(to)) then Err(ToOutOfRange)
    else if IntValue(from) > IntValue(to) then Err(ToBelowFrom)
    else Ok(Ascending(IntValue(from), IntValue(to)))
  }

  /**
    For valid bounds the yielded ports are exactly `from, from+1, ..., to`:
    `to - from + 1` of them, strictly ascending, every one a valid port inside the bounds.
   */
  lemma PortNumbersYieldsRange(from: int, to: int)
    requires InPortRange(from) && InPortRange(to) && from <= to
    ensures PortNumbers(FromInt(from), FromInt(to)).Ok?
    ensures var s := PortNumbers(FromInt(from), FromInt(to)).value;
            && |s| == to - from + 1
            && s[0] == from && s[|s| - 1] == to
            && StrictlyAscending(s)
            && (forall n :: n in s <==> from <= n <= to)
            && (forall i :: 0 <= i < |s| ==> InPortRange(s[i]))
  {
  }
}

=== FILE: probing.dfy ===
/**
  `getAvailablePort`: probing one candidate port, either on the single pinned host
  (or, for the fallback `0`, on the default host) or on every local host in turn.
  The bind-and-release probe is an oracle: the i-th probe made receives the i-th
  outcome of a sequence, and every probe made is recorded with the host and port
  it asked for.
 */
module Probing {
  import opened Base
  import opened LocalHosts

  /** A probe failure; `code` is the errno name, `None` when the error has no code. */
  datatype ProbeError = ProbeError(code: Option<string>)

  /** What one probe reports: the port the listener was bound to, or its error. */
  datatype ProbeOutcome = Bound(port: int) | Refused(err: ProbeError)

  /** A probe made: the host and port passed to `listen`. */
  datatype ProbeCall = ProbeCall(host: Host, port: int)

  /** The outcomes of probing one candidate across all the hosts it needs. */
  datatype Probed =
    | Available(port: int)   // the value `getAvailablePort` resolves with
    | Threw(err: ProbeError) // the error it rejects with
    | Exhausted              // the oracle ran out before the source would have finished

  /** The result of some probing together with the probes it made, in order. */
  datatype WithCalls<+T> = WithCalls(outcome: T, calls: seq<ProbeCall>)

  /** Per-host errors that are swallowed in the multi-host loop. */
  predicate SkipsHost(e: ProbeError) {
    e.code.Some? && e.code.value in ["EADDRNOTAVAIL", "EINVAL"]
  }

  /** A host is passed when its probe bound, or failed with a swallowed error. */
  predicate HostPasses(o: ProbeOutcome) {
    o.Bound? || SkipsHost(o.err)
  }

  /**
    The last `|hosts|` probes in `calls` asked every host, in order, for `port`, and
    each of them passed: `getAvailablePort` checked the port on all local addresses.
   */
  predicate AcceptedByEveryHost(calls: seq<ProbeCall>, oracle: seq<ProbeOutcome>, hosts: seq<Host>, port: int) {
    && |hosts| <= |calls| <= |oracle|
    && forall i :: 0 <= i < |hosts| ==>
         calls[|calls| - |hosts| + i] == ProbeCall(hosts[i], port) && HostPasses(oracle[|calls| - |hosts| + i])
  }

  /** Probes made earlier, on the outcomes before them, do not disturb that verdict. */
  lemma AcceptedAfterEarlierProbes(earlier: seq<ProbeCall>, calls: seq<ProbeCall>, oracle: seq<ProbeOutcome>,
                                   hosts: seq<Host>)
    requires |earlier| <= |oracle|
    ensures forall port :: AcceptedByEveryHost(calls, oracle[|earlier|..], hosts, port) ==>
              AcceptedByEveryHost(earlier + calls, oracle, hosts, port)
  {
    forall port | AcceptedByEveryHost(calls, oracle[|earlier|..], hosts, port)
      ensures AcceptedByEveryHost(earlier + calls, oracle, hosts, port)
    {
      forall i | 0 <= i < |hosts|
        ensures (earlier + calls)[|earlier + calls| - |hosts| + i] == ProbeCall(hosts[i], port)
        ensures HostPasses(oracle[|earlier + calls| - |hosts| + i])
      {
        assert (earlier + calls)[|earlier + calls| - |hosts| + i] == calls[|calls| - |hosts| + i];
        assert oracle[|earlier|..][|calls| - |hosts| + i] == oracle[|earlier + calls| - |hosts| + i];
      }
    }
  }

  /** `options.host || options.port === 0`: the empty host string is falsy. */
  predicate SingleProbe(host: Option<string>, port: int) {
    (host.Some? && host.value != "") || port == 0
  }

  /**
    The loop over `hosts`: each host is probed with the candidate; swallowed errors
    and successes move on, any other error (or one without a code) is rethrown.
    `Available(port)` means every host passed.
   */
  function ProbeHosts(hosts: seq<Host>, port: int, oracle: seq<ProbeOutcome>): (r: WithCalls<Probed>)
    decreases |hosts|
    ensures |r.calls| <= |oracle| && |r.calls| <= |hosts|
    ensures forall i :: 0 <= i < |r.calls| ==> r.calls[i] == ProbeCall(hosts[i], port)
    ensures r.outcome.Available? <==>
              |hosts| <= |oracle| && forall i :: 0 <= i < |hosts| ==> HostPasses(oracle[i])
    ensures r.outcome.Available? ==> r.outcome.port == port && |r.calls| == |hosts|
    ensures r.outcome.Threw? ==>
              && |r.calls| >= 1
              && oracle[|r.calls| - 1] == Refused(r.outcome.err)
              && !SkipsHost(r.outcome.err)
              && forall i :: 0 <= i < |r.calls| - 1 ==> HostPasses(oracle[i])
    ensures r.outcome.Exhausted? ==>
              |oracle| < |hosts| && |r.calls| == |oracle|
              && forall i :: 0 <= i < |oracle| ==> HostPasses(oracle[i])
  {
    if |hosts| == 0 then WithCalls(Available(port), [])
    else if |oracle| == 0 then WithCalls(Exhausted, [])
    else
      var call := ProbeCall(hosts[0], port);
      if !HostPasses(oracle[0]) then WithCalls(Threw(oracle[0].err), [call])
      else
        var rest := ProbeHosts(hosts[1..], port, oracle[1..]);
        WithCalls(rest.outcome, [call] + rest.calls)
  }

  /**
    `getAvailablePort(options, hosts)` for the candidate `port`: one probe on the given
    host when it is set or the candidate is `0`, resolving with the port the probe
    bound; otherwise the multi-host loop, resolving with the candidate itself.
   */
  function GetAvailablePort(host: Option<string>, port: int, hosts: seq<Host>, oracle: seq<ProbeOutcome>)
    : (r: WithCalls<Probed>)
    ensures |r.calls| <= |oracle|
    ensures forall i :: 0 <= i < |r.calls| ==> r.calls[i].port == port
    ensures SingleProbe(host, port) ==>
              && (|oracle| == 0 <==> r.outcome.Exhausted?)
              && (|oracle| > 0 ==> r.calls == [ProbeCall(host, port)])
              && (|oracle| > 0 && oracle[0].Bound? ==> r.outcome == Available(oracle[0].port))
              && (|oracle| > 0 && oracle[0].Refused? ==> r.outcome == Threw(oracle[0].err))
    ensures !SingleProbe(host, port) ==> r == ProbeHosts(hosts, port, oracle)
    ensures r.outcome.Exhausted? ==> |r.calls| == |oracle|
  {
    if SingleProbe(host, port) then
      if |oracle| == 0 then WithCalls(Exhausted, [])
      else
        var call := ProbeCall(host, port);
        match oracle[0]
        case Bound(p) => WithCalls(Available(p), [call])
        case Refused(e) => WithCalls(Threw(e), [call])
    else
      ProbeHosts(hosts, port, oracle)
  }

  /**
    With several hosts, a candidate is reported available exactly when no host's probe
    failed with an error other than EADDRNOTAVAIL or EINVAL, and then the candidate
    itself is the result; a failure at some host stops the loop there.
   */
  lemma {:induction false} MultiHostVerdict(hosts: seq<Host>, port: int, oracle: seq<ProbeOutcome>, k: nat)
    requires k < |hosts| && k < |oracle|
    requires forall i :: 0 <= i < k ==> HostPasses(oracle[i])
    requires oracle[k].Refused? && !SkipsHost(oracle[k].err)
    ensures ProbeHosts(hosts, port, oracle).outcome == Threw(oracle[k].err)
    ensures |ProbeHosts(hosts, port, oracle).calls| == k + 1
    decreases k
  {
    if k > 0 {
      MultiHostVerdict(hosts[1..], port, oracle[1..], k - 1);
    }
  }
}
